=== FILE: README.md ===
# PointInTriangle, modelled in Dafny

PointInTriangle is a small C++ benchmark. It compares two ways of deciding
whether a point P lies in the closed triangle A, B, C:

- **Barycentric** (`PointLiesInTriangle_Barycentric`) solves for the
  barycentric weights with Cramer's rule. It rejects a triangle whose
  determinant is near zero. It then tests that the weights are non-negative
  and that their sum is at most `1 + EPSYLON`.
- **Orientation** (`PointLiesInTriangle_Orientation`) first accepts a point
  that is within the tolerance of a vertex. It then walks the edges A->B,
  B->C and C->A in that order. The first edge whose cross-product value is
  near zero decides by that edge's bounding box. When no edge value is near
  zero, P is inside when the three windings are the same.

The driver does four things:

1. It generates a corpus of triangles with integer coordinates in [0, 999].
   A triangle the orientation primitive `GetOrientation` calls collinear is
   redrawn.
2. It generates a query point for each triangle.
3. It runs each classifier over the corpus.
4. It reports success when the two result arrays agree everywhere.

The model has five modules: four for the components of `main.cpp`, and one
for the agreement theorem:

- `Geometry`: the point type, the tolerance `EPSYLON`, the orientation
  primitive and its symmetries.
- `Barycentric`: the first classifier.
- `OrientationClassifier`: the second classifier.
- `Agreement`: the central theorem. For integer coordinates and a triangle
  the primitive does not call collinear, the two classifiers give the same
  answer. It also holds the worked example triangle (0,0), (10,0), (0,10).
- `Harness`: generation from a random stream, the two passes, the
  comparison loop and the whole program's verdict.

Doubles are modelled as exact `real`s. The tolerance keeps its literal
value 0.000001, and the `+ EPSYLON` slack of the sum test is kept as
written. On integer coordinates every area the programs compute is an
integer. So each "near zero" test is an exact test against zero, and this
is what makes the two classifiers agree.

## Model

| member | source | states |
|---|---|---|
| Geometry.GetOrientation | main.cpp:64-70 | The result is Collinear exactly when the absolute value of `val` is below the tolerance. It is CounterClockwise exactly when `val <= -EPSYLON`, and Clockwise exactly when `val >= EPSYLON`. |
| Geometry.TurnIsNegatedArea | main.cpp:65 | The primitive's `val` is the signed double area of the three points with its sign flipped. |
| Geometry.TurnSymmetry | main.cpp:65 | `val` is unchanged by a cyclic rotation of the three points. Swapping any two of them negates it. |
| Geometry.OrientationRotation | main.cpp:64-70 | Rotating the three points cyclically leaves the orientation unchanged. |
| Geometry.OrientationSwap | main.cpp:64-70 | Swapping any two points exchanges Clockwise and CounterClockwise and keeps Collinear. |
| Geometry.OnLine | main.cpp:79-83 | A point whose area with a proper segment is zero lies on that segment's line, at the position the line parameter names. |
| Barycentric.Determinant | main.cpp:33-44 | The expanded determinant `D` is the signed double area of A, B, C. It is also the negation of the orientation primitive's `val` for A, B, C. |
| Barycentric.Numerator | main.cpp:33-51 | Each weight's numerator, built from the precomputed terms, is the signed double area of the sub-triangle P forms with the opposite edge. |
| Barycentric.BarycentricWeights | main.cpp:47-51 | When `D` is non-zero, the three weights sum to exactly 1. Used as weights on A, B and C, they give back P on both axes. |
| Barycentric.PointLiesInTriangle | main.cpp:44-46 | A triangle whose determinant is near zero is always rejected, whatever the point. |
| Barycentric.SumTestRedundant | main.cpp:49-53 | For a non-degenerate triangle, the result is exactly the three sign tests. The `<= 1 + EPSYLON` sum test never decides anything. |
| Barycentric.BarycentricByAreas | main.cpp:32-54 | For a non-degenerate triangle, P is reported inside exactly when each of the three sub-areas is zero or has the sign of the whole area. |
| Barycentric.BarycentricContainsVertices | main.cpp:44-53 | Each vertex of a non-degenerate triangle is reported inside. |
| Barycentric.CollinearSigns | main.cpp:49-51 | For P at position t on the line through A and B: the weight of C is zero, the sign test on B's weight holds exactly when t >= 0, and the sign test on A's weight holds exactly when t <= 1. |
| Barycentric.BarycentricContainsEdgePoints | main.cpp:44-53 | Every point of the closed edge A-B of a non-degenerate triangle is reported inside. |
| Barycentric.BarycentricContainsSecondEdge | main.cpp:44-53 | Every point of the closed edge B-C of a non-degenerate triangle is reported inside. |
| Barycentric.BarycentricContainsThirdEdge | main.cpp:44-53 | Every point of the closed edge C-A of a non-degenerate triangle is reported inside. |
| Barycentric.BarycentricWithinBoundingBox | main.cpp:49-53 | A point reported inside lies within the bounding box of the three vertices. |
| OrientationClassifier.EdgeValue | main.cpp:79-95 | Each edge's `val` is the orientation primitive's `val` for (P, edge start, edge end). It is also the negated signed area of that triple. |
| OrientationClassifier.PointLiesInTriangle | main.cpp:74-77 | A point within the tolerance of any vertex on both axes is reported inside. |
| OrientationClassifier.CollinearEdgeDecides | main.cpp:79-100 | Once the vertex fast path is not taken, the first edge in the order A->B, B->C, C->A whose value is near zero decides the result. It decides by that edge's box test alone. |
| OrientationClassifier.SameWindingDecides | main.cpp:85-104 | When no vertex is near P and no edge value is near zero, P is inside exactly when the orientation primitive gives the same winding for P against all three edges. |
| OrientationClassifier.BoxIsSegment | main.cpp:82-83 | On the line through a proper segment, the box test holds exactly when P is on the closed segment (position between 0 and 1). |
| OrientationClassifier.ContainsFirstEdge | main.cpp:79-83 | Every point of the closed edge A-B is reported inside, whatever the third vertex. |
| Agreement.AreaIntegral | main.cpp:113-118 | With integer coordinates, every signed double area is an integer. |
| Agreement.IntegralNearZero | main.cpp:45-80 | For an integer value, the near-zero test is exactly a test against zero. |
| Agreement.IntegralNearPoint | main.cpp:74-76 | For integer points, the vertex fast path fires exactly when P equals the vertex. |
| Agreement.SignsAgree | main.cpp:53-104 | When three non-zero sub-areas sum to a non-zero whole, they all have the sign of the whole exactly when they all have the same sign. |
| Agreement.CollinearEdgeAgrees | main.cpp:49-83 | For P on the line of an edge of a non-degenerate triangle, the edge's box test equals the barycentric sign tests. |
| Agreement.WindingIsAreaSign | main.cpp:85-101 | Off the band, the winding is CounterClockwise exactly when the signed area is positive. |
| Agreement.ClassifiersAgree | main.cpp:119-149 | For integer coordinates and a triangle the orientation primitive does not call collinear, the two classifiers return the same answer for every query point. |
| Agreement.OrientationContainsEdgePoints | main.cpp:73-105 | For integer vertices of a triangle the orientation primitive does not call collinear, every integer point of each of the three closed edges is reported inside by the orientation classifier. |
| Agreement.OrientationWithinBoundingBox | main.cpp:73-105 | On integer inputs with a non-collinear triangle, a point the orientation classifier accepts lies in the triangle's bounding box. |
| Agreement.ToleranceBandCounterexample | main.cpp:79-100 | For the non-integer triangle (0,0), (1,0), (3,0.001) and the point of its edge B-C at position 0.0005, the barycentric classifier accepts the point and the orientation classifier rejects it: edge A-B's value is inside the band and its box decides. |
| Agreement.OutsidePointAcceptedCounterexample | main.cpp:79-83 | For the non-integer triangle (0,0), (10,10), (0,10) and the point (5, 4.99999999), which is outside it and away from every vertex, the barycentric classifier rejects the point and the orientation classifier accepts it: edge A-B's value is inside the band and the point is in that edge's box. |
| Agreement.InteriorPointRejectedCounterexample | main.cpp:79-83 | For the non-integer triangle (0,0), (1,0), (3,0.001) and the point (1.001, 0.0000006), whose three sub-areas are all positive, the barycentric classifier accepts the point and the orientation classifier rejects it: edge A-B's value is inside the band and the point is outside that edge's box. |
| Agreement.ClassifyExample | main.cpp:32-105 | On the triangle (0,0), (10,0), (0,10) with an integer query point, both classifiers give this one answer. |
| Agreement.ExampleInside | main.cpp:32-105 | (1,1) is reported inside that triangle by both classifiers. |
| Agreement.ExampleOutside | main.cpp:32-105 | (20,20) is reported outside by both classifiers. |
| Agreement.ExampleOnEdge | main.cpp:32-105 | (5,0), on an edge, is reported inside by both classifiers. |
| Agreement.ExampleAtVertex | main.cpp:32-105 | (0,0), a vertex, is reported inside by both classifiers. |
| Harness.Coordinate | main.cpp:113-132 | A drawn value becomes an integral coordinate in [0, 999]. |
| Harness.TriangleAt | main.cpp:113-131 | Six consecutive draws, taken in the order x1, x2, x3, y1, y2, y3, give three generated points. |
| Harness.DrawUntil | main.cpp:113-126 | The resampling loop consumes at least six draws. It leaves a suffix of the stream, and the triangle it returns meets the loop's exit condition. |
| Harness.DrawUntilIsFirstKept | main.cpp:119-126 | The triangle returned is the first group of six draws that meets the condition. Every earlier group failed the condition, and the number of draws used is a multiple of six. |
| Harness.DrawUntilNoneIffNoneKept | main.cpp:119-126 | The resampling loop gives up exactly when no group of six draws in the stream meets the condition. Whenever some group does, a triangle is returned. |
| Harness.DrawTriangle | main.cpp:113-126 | A generated triangle is never collinear according to the orientation primitive. |
| Harness.DrawTriangleNoneIffAllCollinear | main.cpp:113-126 | A triangle is found exactly when the stream holds a group of six draws that the orientation primitive does not call collinear. |
| Harness.DrawCase | main.cpp:113-132 | A generated case satisfies the loop's postcondition: integral coordinates in [0, 999] and a non-collinear triangle. At least one draw is consumed. |
| Harness.DrawCaseNoneIffNoRoom | main.cpp:113-128 | A case is drawn exactly when some non-collinear group of six draws is followed by at least the two draws of the query point. |
| Harness.Repeat | main.cpp:112-133 | Repeating a drawing step `n` times from one stream yields exactly `n` values, or nothing. |
| Harness.RepeatKeeps | main.cpp:112-133 | Every value produced by the repetition has any property that every successful step guarantees. |
| Harness.RepeatPrefix | main.cpp:112-133 | A stream that suffices for `m` steps suffices for fewer steps, and the shorter result is a prefix of the longer one. |
| Harness.RepeatExtend | main.cpp:112-133 | After `n` successful steps, step `n + 1` succeeds exactly when the step succeeds on the rest of the stream. Its value is then appended. |
| Harness.GenerateCorpus | main.cpp:112-133 | The corpus has exactly the requested number of cases, and every one is well formed. |
| Harness.GenerateCorpusPrefix | main.cpp:112-133 | The cases are drawn in order from one stream: a stream that suffices for `m` cases suffices for fewer, and the smaller corpus is the beginning of the larger one. |
| Harness.GenerateCorpusExtend | main.cpp:112-133 | After `n` cases, case `n + 1` is drawn exactly when the rest of the stream still holds a non-collinear group of six draws followed by two more. That case is appended to the corpus. |
| Harness.RunPass | main.cpp:136-142 | Each result is the classifier applied to the case with the same index. |
| Harness.Compare | main.cpp:145-149 | `overall_success` is true exactly when the two result sequences agree at every index. |
| Harness.RunBenchmark | main.cpp:135-149 | Success means the two classifiers agree on every case. On a well-formed corpus the verdict is always success. |
| Harness.RunProgram | main.cpp:107-158 | The program produces a verdict exactly when the stream suffices to generate the corpus, and that verdict is always SUCCESS. |

## Left out

- Timing: the `steady_clock` reads and the two reported durations. They do not influence any result.
- Output: printing `OVERALL : SUCCESS` or `FAILURE` and the timings. The verdict is returned as a value instead.
- Seeding: `srand` from the clock is left out. `rand()` is a parameter, a finite stream of the values `rand() % 1000` returns, consumed in order.
- Harness.DrawUntil: the program's resampling loop has no bound and `rand()` never runs out. The model's stream is finite, so it returns `None` exactly when no remaining group of six draws is non-collinear (`Harness.DrawUntilNoneIffNoneKept`).
- Global arrays: the fixed-size arrays of `NUMBER_OF_TESTS` entries are modelled as sequences of the requested length. The constant 10000000 is the caller's `n`.
- Floating point: doubles are exact reals, so IEEE-754 rounding is not modelled. Every comparison, including the tolerance tests and the `+ EPSYLON` slack, is kept as written.
- OrientationClassifier.PointLiesInTriangle: on degenerate triangles only the structural facts hold: the vertex fast path, the edge-ordered box decision, the same-winding rule and acceptance of the closed edge A-B. No agreement with the barycentric classifier and no containment meaning is claimed there. The driver never feeds it such a triangle.
- Integer widths: the `int32_t` coordinates cannot overflow (they are below 1000), so they are plain integers.
- The exit code (always 0) is not modelled.

## Design remarks

- In exact arithmetic the barycentric weights sum to exactly one
  (`Barycentric.BarycentricWeights`). So the `+ EPSYLON` slack only matters
  under rounding (`Barycentric.SumTestRedundant`).
- Outside integer inputs the classifiers can disagree. For example:
  - A point within the tolerance of a vertex but outside the triangle is
    accepted by the fast path of the orientation classifier.
  - A point on or near edge B-C or C-A, even one strictly inside the
    triangle, can be rejected by the orientation classifier. This happens
    when the value of an earlier edge falls inside the tolerance band,
    because that earlier edge's box then decides.
    `Agreement.ToleranceBandCounterexample` shows it for the thin triangle
    (0,0), (1,0), (3,0.001) and the point (1.001, 0.0000005) on edge B-C.
    `Agreement.InteriorPointRejectedCounterexample` shows it for the
    interior point (1.001, 0.0000006) of the same triangle.
  - A point outside the triangle and away from every vertex can be
    accepted by the orientation classifier. This happens when its value
    for some edge falls inside the band and it lies in that edge's box.
    `Agreement.OutsidePointAcceptedCounterexample` shows it for the
    triangle (0,0), (10,10), (0,10) and the point (5, 4.99999999).

  The driver only produces integer inputs, so none of these is a defect of
  the program. On integer inputs both classifiers accept every point of
  every edge (`Agreement.OrientationContainsEdgePoints`).

=== FILE: agreement.dfy ===
/** The claim the benchmark checks by sampling: on the triangles and points
    its generator produces, the two classifiers give the same answer.

    The generator only produces integer coordinates. On such inputs every
    area and every edge value is an integer, so each test against the
    tolerance is an exact test against zero, and the exact-arithmetic model
    decides the claim for all such inputs at once. */
module Agreement {
  import opened Geometry
  import Barycentric
  import OrientationClassifier

  /** A real with no fractional part. */
  predicate IsIntegral(v: real) {
    v == v.Floor as real
  }

  /** A point with integer coordinates. */
  predicate IntegralPoint(p: Point) {
    IsIntegral(p.x) && IsIntegral(p.y)
  }

  /** The triangle is not collinear according to the orientation
      primitive: the condition the generator's resampling loop waits for. */
  predicate NonCollinear(a: Point, b: Point, c: Point) {
    OrientationOf(a, b, c) != Collinear
  }

  /** The area spanned by integer points is an integer. */
  lemma AreaIntegral(p: Point, q: Point, r: Point)
    requires IntegralPoint(p) && IntegralPoint(q) && IntegralPoint(r)
    ensures IsIntegral(Area2(p, q, r))
  {
    var px, py, qx, qy, rx, ry := p.x.Floor, p.y.Floor, q.x.Floor, q.y.Floor, r.x.Floor, r.y.Floor;
    var k := (qx - px) * (ry - py) - (qy - py) * (rx - px);
    IntProduct(qx - px, ry - py);
    IntProduct(qy - py, rx - px);
    assert Area2(p, q, r) == k as real;
  }

  /** Converting to `real` commutes with multiplication. */
  lemma IntProduct(i: int, j: int)
    ensures (i * j) as real == (i as real) * (j as real)
  {
  }

  /** On integers the tolerance band holds zero alone. */
  lemma IntegralNearZero(v: real)
    requires IsIntegral(v)
    ensures NearZero(v) <==> v == 0.0
    ensures NearZero(-v) <==> v == 0.0
  {
  }

  /** On integer points the vertex fast path fires only at the vertex
      itself. */
  lemma IntegralNearPoint(q: Point, p: Point)
    requires IntegralPoint(q) && IntegralPoint(p)
    ensures OrientationClassifier.NearPoint(q, p) <==> q == p
  {
    var dx, dy := q.x.Floor - p.x.Floor, q.y.Floor - p.y.Floor;
    assert q.x - p.x == dx as real && q.y - p.y == dy as real;
  }

  /** Three non-zero values share one sign. */
  predicate SameSign(n1: real, n2: real, n3: real) {
    (n1 < 0.0) == (n2 < 0.0) && (n2 < 0.0) == (n3 < 0.0)
  }

  /** Three non-zero areas summing to a non-zero whole: each has the sign of
      the whole exactly when all three share one sign. */
  lemma SignsAgree(n1: real, n2: real, n3: real, d: real)
    requires n1 != 0.0 && n2 != 0.0 && n3 != 0.0 && d != 0.0
    requires n1 + n2 + n3 == d
    ensures (n1 * d >= 0.0 && n2 * d >= 0.0 && n3 * d >= 0.0)
        <==> SameSign(n1, n2, n3)
  {
    if d > 0.0 {
      assert n1 * d >= 0.0 <==> n1 > 0.0;
      assert n2 * d >= 0.0 <==> n2 > 0.0;
      assert n3 * d >= 0.0 <==> n3 > 0.0;
    } else {
      assert n1 * d >= 0.0 <==> n1 < 0.0;
      assert n2 * d >= 0.0 <==> n2 < 0.0;
      assert n3 * d >= 0.0 <==> n3 < 0.0;
    }
  }

  /** For the edge from e to f of the triangle (e, f, g) with p on its line,
      the barycentric sign tests say exactly what the box test of the
      orientation classifier says: p is on the closed edge. */
  lemma CollinearEdgeAgrees(e: Point, f: Point, g: Point, p: Point)
    requires Area2(e, f, g) != 0.0
    requires Area2(p, e, f) == 0.0
    ensures (&& Barycentric.SameSideOrOn(Area2(p, f, g), Area2(e, f, g))
             && Barycentric.SameSideOrOn(Area2(p, g, e), Area2(e, f, g)))
        <==> OrientationClassifier.InEdgeBox(p, e, f)
  {
    assert e != f;
    OnLine(e, f, p);
    var t := LineParam(e, f, p);
    OrientationClassifier.BoxIsSegment(e, f, p, t);
    Barycentric.CollinearSigns(e, f, g, p, t);
  }

  /** Agreement when the first edge's value is zero: both classifiers
      decide by whether p is on the closed edge from a to b. */
  lemma AgreeOnFirstEdge(a: Point, b: Point, c: Point, p: Point)
    requires !NearZero(Barycentric.Determinant(a, b, c))
    requires OrientationClassifier.AwayFromVertices(a, b, c, p)
    requires Area2(p, a, b) == 0.0
    ensures Barycentric.PointLiesInTriangle(a, b, c, p)
         == OrientationClassifier.PointLiesInTriangle(a, b, c, p)
  {
    Barycentric.BarycentricByAreas(a, b, c, p);
    OrientationClassifier.CollinearEdgeDecides(a, b, c, p);
    CollinearEdgeAgrees(a, b, c, p);
  }

  /** Agreement when the first edge's value is clear of zero and the
      second's is zero: both decide by the closed edge from b to c. */
  lemma AgreeOnSecondEdge(a: Point, b: Point, c: Point, p: Point)
    requires !NearZero(Barycentric.Determinant(a, b, c))
    requires OrientationClassifier.AwayFromVertices(a, b, c, p)
    requires !NearZero(Area2(p, a, b)) && Area2(p, b, c) == 0.0
    ensures Barycentric.PointLiesInTriangle(a, b, c, p)
         == OrientationClassifier.PointLiesInTriangle(a, b, c, p)
  {
    Barycentric.BarycentricByAreas(a, b, c, p);
    OrientationClassifier.CollinearEdgeDecides(a, b, c, p);
    assert Area2(b, c, a) == Area2(a, b, c);
    CollinearEdgeAgrees(b, c, a, p);
  }

  /** Agreement when only the third edge's value is zero: both decide by
      the closed edge from c to a. */
  lemma AgreeOnThirdEdge(a: Point, b: Point, c: Point, p: Point)
    requires !NearZero(Barycentric.Determinant(a, b, c))
    requires OrientationClassifier.AwayFromVertices(a, b, c, p)
    requires !NearZero(Area2(p, a, b)) && !NearZero(Area2(p, b, c)) && Area2(p, c, a) == 0.0
    ensures Barycentric.PointLiesInTriangle(a, b, c, p)
         == OrientationClassifier.PointLiesInTriangle(a, b, c, p)
  {
    Barycentric.BarycentricByAreas(a, b, c, p);
    OrientationClassifier.CollinearEdgeDecides(a, b, c, p);
    assert Area2(c, a, b) == Area2(a, b, c);
    CollinearEdgeAgrees(c, a, b, p);
  }

  /** Away from zero, the winding of (p, e, f) is read off the sign of the
      area: a positive area is counter-clockwise. */
  lemma WindingIsAreaSign(p: Point, e: Point, f: Point)
    requires !NearZero(Area2(p, e, f))
    ensures OrientationOf(p, e, f) == (if Area2(p, e, f) > 0.0 then CounterClockwise else Clockwise)
  {
    TurnIsNegatedArea(p, e, f);
  }

  /** Off every edge line, the barycentric classifier asks whether the
      three sub-areas share one sign. */
  lemma BarycentricOffEdges(a: Point, b: Point, c: Point, p: Point)
    requires !NearZero(Barycentric.Determinant(a, b, c))
    requires Area2(p, a, b) != 0.0 && Area2(p, b, c) != 0.0 && Area2(p, c, a) != 0.0
    ensures Barycentric.PointLiesInTriangle(a, b, c, p)
        <==> SameSign(Area2(p, b, c), Area2(p, c, a), Area2(p, a, b))
  {
    Barycentric.AreasSum(a, b, c, p);
    SignsAgree(Area2(p, b, c), Area2(p, c, a), Area2(p, a, b), Area2(a, b, c));
    Barycentric.BarycentricByAreas(a, b, c, p);
  }

  /** Clear of the vertices and of every edge line, the orientation
      classifier asks the same question. */
  lemma OrientationOffEdges(a: Point, b: Point, c: Point, p: Point)
    requires OrientationClassifier.AwayFromVertices(a, b, c, p)
    requires !NearZero(Area2(p, a, b)) && !NearZero(Area2(p, b, c)) && !NearZero(Area2(p, c, a))
    ensures OrientationClassifier.PointLiesInTriangle(a, b, c, p)
        <==> SameSign(Area2(p, b, c), Area2(p, c, a), Area2(p, a, b))
  {
    TurnIsNegatedArea(p, a, b);
    TurnIsNegatedArea(p, b, c);
    TurnIsNegatedArea(p, c, a);
    OrientationClassifier.SameWindingDecides(a, b, c, p);
    WindingIsAreaSign(p, a, b);
    WindingIsAreaSign(p, b, c);
    WindingIsAreaSign(p, c, a);
  }

  /** The central claim: for integer coordinates and a triangle the
      orientation primitive does not call collinear, the barycentric and
      the orientation classifiers agree on every query point. */
  lemma ClassifiersAgree(a: Point, b: Point, c: Point, p: Point)
    requires IntegralPoint(a) && IntegralPoint(b) && IntegralPoint(c) && IntegralPoint(p)
    requires NonCollinear(a, b, c)
    ensures Barycentric.PointLiesInTriangle(a, b, c, p)
         == OrientationClassifier.PointLiesInTriangle(a, b, c, p)
  {
    assert !NearZero(Barycentric.Determinant(a, b, c));
    IntegralNearPoint(a, p);
    IntegralNearPoint(b, p);
    IntegralNearPoint(c, p);
    if p == a || p == b || p == c {
      Barycentric.BarycentricContainsVertices(a, b, c);
    } else {
      AreaIntegral(p, a, b);
      AreaIntegral(p, b, c);
      AreaIntegral(p, c, a);
      IntegralNearZero(Area2(p, a, b));
      IntegralNearZero(Area2(p, b, c));
      IntegralNearZero(Area2(p, c, a));
      if Area2(p, a, b) == 0.0 {
        AgreeOnFirstEdge(a, b, c, p);
      } else if Area2(p, b, c) == 0.0 {
        AgreeOnSecondEdge(a, b, c, p);
      } else if Area2(p, c, a) == 0.0 {
        AgreeOnThirdEdge(a, b, c, p);
      } else {
        BarycentricOffEdges(a, b, c, p);
        OrientationOffEdges(a, b, c, p);
      }
    }
  }

  /** On the generator's inputs the orientation classifier, too, accepts
      every point of each closed edge that has integer coordinates. */
  lemma OrientationContainsEdgePoints(a: Point, b: Point, c: Point, t: real)
    requires IntegralPoint(a) && IntegralPoint(b) && IntegralPoint(c)
    requires NonCollinear(a, b, c)
    requires 0.0 <= t <= 1.0
    ensures IntegralPoint(Between(a, b, t))
        ==> OrientationClassifier.PointLiesInTriangle(a, b, c, Between(a, b, t))
    ensures IntegralPoint(Between(b, c, t))
        ==> OrientationClassifier.PointLiesInTriangle(a, b, c, Between(b, c, t))
    ensures IntegralPoint(Between(c, a, t))
        ==> OrientationClassifier.PointLiesInTriangle(a, b, c, Between(c, a, t))
  {
    assert !NearZero(Barycentric.Determinant(a, b, c));
    Barycentric.BarycentricContainsEdgePoints(a, b, c, t);
    Barycentric.BarycentricContainsSecondEdge(a, b, c, t);
    Barycentric.BarycentricContainsThirdEdge(a, b, c, t);
    if IntegralPoint(Between(a, b, t)) {
      ClassifiersAgree(a, b, c, Between(a, b, t));
    }
    if IntegralPoint(Between(b, c, t)) {
      ClassifiersAgree(a, b, c, Between(b, c, t));
    }
    if IntegralPoint(Between(c, a, t)) {
      ClassifiersAgree(a, b, c, Between(c, a, t));
    }
  }

  /** On the generator's inputs a point the orientation classifier accepts
      lies in the triangle's bounding box, so a point outside that box is
      rejected by both classifiers. */
  lemma OrientationWithinBoundingBox(a: Point, b: Point, c: Point, p: Point)
    requires IntegralPoint(a) && IntegralPoint(b) && IntegralPoint(c) && IntegralPoint(p)
    requires NonCollinear(a, b, c)
    requires OrientationClassifier.PointLiesInTriangle(a, b, c, p)
    ensures Barycentric.Min3(a.x, b.x, c.x) <= p.x <= Barycentric.Max3(a.x, b.x, c.x)
    ensures Barycentric.Min3(a.y, b.y, c.y) <= p.y <= Barycentric.Max3(a.y, b.y, c.y)
  {
    ClassifiersAgree(a, b, c, p);
    Barycentric.BarycentricWithinBoundingBox(a, b, c, p);
  }

  /** Off integer inputs the tolerance band lets the two classifiers
      disagree on a point of an edge: for the thin triangle (0,0), (1,0),
      (3,0.001) and the point of its edge B-C at position 0.0005, the value
      of edge A-B is -0.0000005, inside the band, so the orientation
      classifier decides by the box of A-B, which the point lies outside;
      the barycentric classifier accepts the point. */
  lemma ToleranceBandCounterexample()
    ensures var a, b, c := Point(0.0, 0.0), Point(1.0, 0.0), Point(3.0, 0.001);
      var p := Between(b, c, 0.0005);
      && NonCollinear(a, b, c)
      && Barycentric.PointLiesInTriangle(a, b, c, p)
      && !OrientationClassifier.PointLiesInTriangle(a, b, c, p)
  {
    var a, b, c := Point(0.0, 0.0), Point(1.0, 0.0), Point(3.0, 0.001);
    var p := Between(b, c, 0.0005);
    assert p == Point(1.001, 0.0000005);
    assert OrientationOf(a, b, c) == CounterClockwise;
    assert Barycentric.Determinant(a, b, c) == 0.001;
    Barycentric.BarycentricContainsSecondEdge(a, b, c, 0.0005);
    assert OrientationClassifier.EdgeValue(a, b, p) == -0.0000005;
    assert !OrientationClassifier.InEdgeBox(p, a, b);
  }

  /** Off integer inputs the tolerance band can also accept a point outside
      the triangle and away from every vertex: for the triangle (0,0),
      (10,10), (0,10) the point (5, 4.99999999) lies just below edge A-B,
      whose value 0.0000001 is inside the band, and inside that edge's box. */
  lemma OutsidePointAcceptedCounterexample()
    ensures var a, b, c := Point(0.0, 0.0), Point(10.0, 10.0), Point(0.0, 10.0);
      var p := Point(5.0, 4.99999999);
      && NonCollinear(a, b, c)
      && OrientationClassifier.AwayFromVertices(a, b, c, p)
      && !Barycentric.PointLiesInTriangle(a, b, c, p)
      && OrientationClassifier.PointLiesInTriangle(a, b, c, p)
  {
    var a, b, c := Point(0.0, 0.0), Point(10.0, 10.0), Point(0.0, 10.0);
    var p := Point(5.0, 4.99999999);
    assert OrientationOf(a, b, c) == CounterClockwise;
    assert Barycentric.Determinant(a, b, c) == 100.0;
    assert Area2(p, a, b) == -0.0000001;
    Barycentric.BarycentricByAreas(a, b, c, p);
    assert OrientationClassifier.EdgeValue(a, b, p) == 0.0000001;
    assert OrientationClassifier.InEdgeBox(p, a, b);
  }

  /** Off integer inputs the tolerance band can also reject a point strictly
      inside the triangle: for the thin triangle (0,0), (1,0), (3,0.001) the
      point (1.001, 0.0000006) has three positive sub-areas, but the value
      -0.0000006 of edge A-B is inside the band and the point lies outside
      that edge's box. */
  lemma InteriorPointRejectedCounterexample()
    ensures var a, b, c := Point(0.0, 0.0), Point(1.0, 0.0), Point(3.0, 0.001);
      var p := Point(1.001, 0.0000006);
      && NonCollinear(a, b, c)
      && Area2(p, b, c) > 0.0 && Area2(p, c, a) > 0.0 && Area2(p, a, b) > 0.0
      && Barycentric.PointLiesInTriangle(a, b, c, p)
      && !OrientationClassifier.PointLiesInTriangle(a, b, c, p)
  {
    var a, b, c := Point(0.0, 0.0), Point(1.0, 0.0), Point(3.0, 0.001);
    var p := Point(1.001, 0.0000006);
    assert OrientationOf(a, b, c) == CounterClockwise;
    assert Barycentric.Determinant(a, b, c) == 0.001;
    assert Area2(p, a, b) == 0.0000006;
    assert Area2(p, b, c) == 0.0000002;
    assert Area2(p, c, a) == 0.0009992;
    Barycentric.BarycentricByAreas(a, b, c, p);
    assert OrientationClassifier.EdgeValue(a, b, p) == -0.0000006;
    assert !OrientationClassifier.InEdgeBox(p, a, b);
  }

  /** The triangle (0,0), (10,0), (0,10) used as the worked example. */
  function ExampleTriangle(): (Point, Point, Point) {
    (Point(0.0, 0.0), Point(10.0, 0.0), Point(0.0, 10.0))
  }

  /** Both classifiers applied to one query point of the example triangle,
      after checking that they agree there. */
  function ClassifyExample(p: Point): (r: bool)
    requires IntegralPoint(p)
    ensures var (a, b, c) := ExampleTriangle();
      && r == Barycentric.PointLiesInTriangle(a, b, c, p)
      && r == OrientationClassifier.PointLiesInTriangle(a, b, c, p)
  {
    var (a, b, c) := ExampleTriangle();
    assert IntegralPoint(a) && IntegralPoint(b) && IntegralPoint(c);
    assert NonCollinear(a, b, c);
    ClassifiersAgree(a, b, c, p);
    OrientationClassifier.PointLiesInTriangle(a, b, c, p)
  }

  /** A point inside the example triangle. */
  lemma ExampleInside()
    ensures ClassifyExample(Point(1.0, 1.0))
  {
    assert IntegralPoint(Point(1.0, 1.0));
  }

  /** A point beyond the example triangle's hypotenuse. */
  lemma ExampleOutside()
    ensures !ClassifyExample(Point(20.0, 20.0))
  {
    assert IntegralPoint(Point(20.0, 20.0));
  }

  /** A point in the middle of the example triangle's first edge. */
  lemma ExampleOnEdge()
    ensures ClassifyExample(Point(5.0, 0.0))
  {
    assert IntegralPoint(Point(5.0, 0.0));
  }

  /** The example triangle's first vertex. */
  lemma ExampleAtVertex()
    ensures ClassifyExample(Point(0.0, 0.0))
  {
    assert IntegralPoint(Point(0.0, 0.0));
  }
}

=== FILE: barycentric.dfy ===
/** The first classifier: point-in-triangle by barycentric coordinates,
    solved with Cramer's rule. Arithmetic is exact (`real`). */
module Barycentric {
  import opened Geometry

  /** The determinant `D` of the barycentric system, as the program
      expands it. */
  function Determinant(a: Point, b: Point, c: Point): (d: real)
    ensures d == Area2(a, b, c)
    ensures d == -TurnOf(a, b, c)
  {
    a.x * (b.y - c.y) + b.x * (c.y - a.y) + c.x * (a.y - b.y)
  }

  /** The numerator of the weight of the vertex opposite the edge from q
      to r, formed as the program forms it from the precomputed terms
      `q.Y - r.Y`, `r.X - q.X` and `q.X * r.Y - r.X * q.Y`. It is the signed
      double area of the sub-triangle that p forms with that edge. */
  function Numerator(q: Point, r: Point, p: Point): (n: real)
    ensures n == Area2(p, q, r)
  {
    p.x * (q.y - r.y) + p.y * (r.x - q.x) + (q.x * r.y - r.x * q.y)
  }

  /** Three barycentric weights (A1, A2, A3), attached to a, b and c. */
  datatype Weights = Weights(a1: real, a2: real, a3: real)

  /** The sub-areas add up to the whole area: the identity behind the
      weights summing to one. */
  lemma AreasSum(a: Point, b: Point, c: Point, p: Point)
    ensures Area2(p, b, c) + Area2(p, c, a) + Area2(p, a, b) == Area2(a, b, c)
  {
  }

  /** Each coordinate of p, scaled by the area, is the area-weighted sum of
      the vertices' coordinates. */
  lemma AreasReconstruct(a: Point, b: Point, c: Point, p: Point)
    ensures p.x * Area2(a, b, c)
         == Area2(p, b, c) * a.x + Area2(p, c, a) * b.x + Area2(p, a, b) * c.x
    ensures p.y * Area2(a, b, c)
         == Area2(p, b, c) * a.y + Area2(p, c, a) * b.y + Area2(p, a, b) * c.y
  {
  }

  /** The weights: numerators multiplied by the inverse of `D`. They are
      the barycentric coordinates of p: they sum to one and, used as
      weights on the vertices, give back p. */
  function BarycentricWeights(a: Point, b: Point, c: Point, p: Point): (w: Weights)
    requires Determinant(a, b, c) != 0.0
    ensures w.a1 + w.a2 + w.a3 == 1.0
    ensures p.x == w.a1 * a.x + w.a2 * b.x + w.a3 * c.x
    ensures p.y == w.a1 * a.y + w.a2 * b.y + w.a3 * c.y
  {
    var d := Determinant(a, b, c);
    var inv := 1.0 / d;
    AreasSum(a, b, c, p);
    AreasReconstruct(a, b, c, p);
    Weights(Numerator(b, c, p) * inv, Numerator(c, a, p) * inv, Numerator(a, b, p) * inv)
  }

  /** `PointLiesInTriangle_Barycentric`: reject a triangle whose determinant
      is near zero, otherwise test the signs of the weights and their sum,
      the sum with the `+ EPSYLON` slack kept literally. */
  function PointLiesInTriangle(a: Point, b: Point, c: Point, p: Point): (r: bool)
    ensures NearZero(Determinant(a, b, c)) ==> !r
  {
    var d := Determinant(a, b, c);
    if Abs(d) < Epsilon then false
    else
      var w := BarycentricWeights(a, b, c, p);
      w.a1 >= 0.0 && w.a2 >= 0.0 && w.a3 >= 0.0 && w.a1 + w.a2 + w.a3 <= 1.0 + Epsilon
  }

  /** Scaling by the inverse of a non-zero `d` keeps the sign test that
      `n * d` gives. */
  lemma ScaledSign(n: real, d: real)
    requires d != 0.0
    ensures n * (1.0 / d) >= 0.0 <==> n * d >= 0.0
  {
    if d > 0.0 {
      assert 1.0 / d > 0.0;
    } else {
      assert 1.0 / d < 0.0;
    }
  }

  /** For a non-degenerate triangle the weights sum to exactly one, so the
      sum test never decides anything: the classifier is the three sign
      tests alone. */
  lemma SumTestRedundant(a: Point, b: Point, c: Point, p: Point)
    requires !NearZero(Determinant(a, b, c))
    ensures var w := BarycentricWeights(a, b, c, p);
      PointLiesInTriangle(a, b, c, p) <==> w.a1 >= 0.0 && w.a2 >= 0.0 && w.a3 >= 0.0
  {
  }

  /** p lies on the closed side of the line through q and r that the
      triangle's third vertex lies on, expressed by areas: the sub-area has
      the sign of the whole area `d`, or is zero. */
  predicate SameSideOrOn(subArea: real, d: real) {
    subArea * d >= 0.0
  }

  /** The classifier in terms of signed areas alone: for a non-degenerate
      triangle, p is reported inside exactly when each of the three
      sub-triangles it forms with an edge has the orientation of the whole
      triangle, or is flat. */
  lemma BarycentricByAreas(a: Point, b: Point, c: Point, p: Point)
    requires !NearZero(Determinant(a, b, c))
    ensures PointLiesInTriangle(a, b, c, p)
        <==> (&& SameSideOrOn(Area2(p, b, c), Area2(a, b, c))
              && SameSideOrOn(Area2(p, c, a), Area2(a, b, c))
              && SameSideOrOn(Area2(p, a, b), Area2(a, b, c)))
  {
    var d := Determinant(a, b, c);
    ScaledSign(Numerator(b, c, p), d);
    ScaledSign(Numerator(c, a, p), d);
    ScaledSign(Numerator(a, b, p), d);
  }

  /** Each vertex of a non-degenerate triangle is reported inside. */
  lemma BarycentricContainsVertices(a: Point, b: Point, c: Point)
    requires !NearZero(Determinant(a, b, c))
    ensures PointLiesInTriangle(a, b, c, a)
    ensures PointLiesInTriangle(a, b, c, b)
    ensures PointLiesInTriangle(a, b, c, c)
  {
    BarycentricByAreas(a, b, c, a);
    BarycentricByAreas(a, b, c, b);
    BarycentricByAreas(a, b, c, c);
  }

  /** For a point at position `t` on the line through a and b, the sign
      tests of the two weights that can vary say exactly that p is on the
      closed segment: the weight of c is zero, that of b is `t` and that of
      a is `1 - t`. */
  lemma CollinearSigns(a: Point, b: Point, c: Point, p: Point, t: real)
    requires p == Between(a, b, t)
    requires Area2(a, b, c) != 0.0
    ensures Area2(p, a, b) == 0.0
    ensures SameSideOrOn(Area2(p, c, a), Area2(a, b, c)) <==> t >= 0.0
    ensures SameSideOrOn(Area2(p, b, c), Area2(a, b, c)) <==> t <= 1.0
  {
    assert Area2(p, c, a) == t * Area2(a, b, c);
    assert Area2(p, b, c) == (1.0 - t) * Area2(a, b, c);
    ScaleSign(t, Area2(a, b, c), Area2(p, c, a));
    ScaleSign(1.0 - t, Area2(a, b, c), Area2(p, b, c));
  }

  /** A multiple `k * d` of a non-zero `d` has the sign of `d` exactly when
      `k` is non-negative. */
  lemma ScaleSign(k: real, d: real, n: real)
    requires d != 0.0 && n == k * d
    ensures n * d >= 0.0 <==> k >= 0.0
  {
    if d > 0.0 {
      if k >= 0.0 { assert n >= 0.0; } else { assert n < 0.0; }
    } else {
      if k >= 0.0 { assert n <= 0.0; } else { assert n > 0.0; }
    }
  }

  /** Every point of the closed edge from a to b of a non-degenerate
      triangle is reported inside. */
  lemma BarycentricContainsEdgePoints(a: Point, b: Point, c: Point, t: real)
    requires !NearZero(Determinant(a, b, c))
    requires 0.0 <= t <= 1.0
    ensures PointLiesInTriangle(a, b, c, Between(a, b, t))
  {
    var p := Between(a, b, t);
    CollinearSigns(a, b, c, p, t);
    assert SameSideOrOn(Area2(p, a, b), Area2(a, b, c));
    BarycentricByAreas(a, b, c, p);
  }

  /** Every point of the closed edge from b to c of a non-degenerate
      triangle is reported inside. */
  lemma BarycentricContainsSecondEdge(a: Point, b: Point, c: Point, t: real)
    requires !NearZero(Determinant(a, b, c))
    requires 0.0 <= t <= 1.0
    ensures PointLiesInTriangle(a, b, c, Between(b, c, t))
  {
    var p := Between(b, c, t);
    assert Area2(b, c, a) == Area2(a, b, c);
    CollinearSigns(b, c, a, p, t);
    BarycentricByAreas(a, b, c, p);
  }

  /** Every point of the closed edge from c to a of a non-degenerate
      triangle is reported inside. */
  lemma BarycentricContainsThirdEdge(a: Point, b: Point, c: Point, t: real)
    requires !NearZero(Determinant(a, b, c))
    requires 0.0 <= t <= 1.0
    ensures PointLiesInTriangle(a, b, c, Between(c, a, t))
  {
    var p := Between(c, a, t);
    assert Area2(c, a, b) == Area2(a, b, c);
    CollinearSigns(c, a, b, p, t);
    BarycentricByAreas(a, b, c, p);
  }

  /** The least of three values. */
  function Min3(u: real, v: real, w: real): real {
    if u <= v && u <= w then u else if v <= w then v else w
  }

  /** The greatest of three values. */
  function Max3(u: real, v: real, w: real): real {
    if u >= v && u >= w then u else if v >= w then v else w
  }

  /** A non-negative weight keeps a value's bounds. */
  lemma WeightedBound(w: real, u: real, lo: real, hi: real)
    requires w >= 0.0 && lo <= u <= hi
    ensures w * lo <= w * u <= w * hi
  {
    assert w * u - w * lo == w * (u - lo);
    assert w * hi - w * u == w * (hi - u);
  }

  /** A convex combination of three values lies between their minimum and
      maximum. */
  lemma ConvexBounds(w1: real, w2: real, w3: real, u: real, v: real, s: real)
    requires w1 >= 0.0 && w2 >= 0.0 && w3 >= 0.0 && w1 + w2 + w3 == 1.0
    ensures Min3(u, v, s) <= w1 * u + w2 * v + w3 * s <= Max3(u, v, s)
  {
    var m := Min3(u, v, s);
    var mx := Max3(u, v, s);
    WeightedBound(w1, u, m, mx);
    WeightedBound(w2, v, m, mx);
    WeightedBound(w3, s, m, mx);
    assert w1 * m + w2 * m + w3 * m == (w1 + w2 + w3) * m == m;
    assert w1 * mx + w2 * mx + w3 * mx == (w1 + w2 + w3) * mx == mx;
    AddBounds(w1 * m, w2 * m, w3 * m, w1 * u, w2 * v, w3 * s);
    AddBounds(w1 * u, w2 * v, w3 * s, w1 * mx, w2 * mx, w3 * mx);
  }

  /** Termwise bounds add up. */
  lemma AddBounds(x1: real, x2: real, x3: real, y1: real, y2: real, y3: real)
    requires x1 <= y1 && x2 <= y2 && x3 <= y3
    ensures x1 + x2 + x3 <= y1 + y2 + y3
  {
  }

  /** A point reported inside lies in the triangle's bounding box; so a
      point outside that box is always reported outside. */
  lemma BarycentricWithinBoundingBox(a: Point, b: Point, c: Point, p: Point)
    requires PointLiesInTriangle(a, b, c, p)
    ensures Min3(a.x, b.x, c.x) <= p.x <= Max3(a.x, b.x, c.x)
    ensures Min3(a.y, b.y, c.y) <= p.y <= Max3(a.y, b.y, c.y)
  {
    assert !NearZero(Determinant(a, b, c));
    var w := BarycentricWeights(a, b, c, p);
    SumTestRedundant(a, b, c, p);
    WeightsWithinBoundingBox(a, b, c, p, w);
  }

  /** Non-negative weights summing to one that give back p place p within
      the box of the three vertices. */
  lemma WeightsWithinBoundingBox(a: Point, b: Point, c: Point, p: Point, w: Weights)
    requires w.a1 >= 0.0 && w.a2 >= 0.0 && w.a3 >= 0.0 && w.a1 + w.a2 + w.a3 == 1.0
    requires p.x == w.a1 * a.x + w.a2 * b.x + w.a3 * c.x
    requires p.y == w.a1 * a.y + w.a2 * b.y + w.a3 * c.y
    ensures Min3(a.x, b.x, c.x) <= p.x <= Max3(a.x, b.x, c.x)
    ensures Min3(a.y, b.y, c.y) <= p.y <= Max3(a.y, b.y, c.y)
  {
    ConvexBounds(w.a1, w.a2, w.a3, a.x, b.x, c.x);
    ConvexBounds(w.a1, w.a2, w.a3, a.y, b.y, c.y);
  }
}

=== FILE: geometry.dfy ===
/** Points, the shared tolerance and the orientation primitive of the
    point-in-triangle benchmark.

    The program computes in IEEE-754 doubles; this model computes in exact
    `real` arithmetic, so floating-point rounding is abstracted away. The
    tolerance is kept with its literal value. */
module Geometry {

  /** The single tolerance shared by every comparison (`EPSYLON`). */
  const Epsilon: real := 0.000001

  /** An immutable pair of coordinates. */
  datatype Point = Point(x: real, y: real)

  /** The winding of an ordered triple of points. */
  datatype Orientation = Clockwise | CounterClockwise | Collinear

  /** `fabs` on the model's exact reals. */
  function Abs(v: real): (r: real)
    ensures r >= 0.0
    ensures r == v || r == -v
  {
    if v < 0.0 then -v else v
  }

  /** `fabs(v) < EPSYLON`: the value is treated as zero. */
  predicate NearZero(v: real) {
    Abs(v) < Epsilon
  }

  /** The cross-product value `val` computed for three ordered points
      (x1, y1), (x2, y2), (x3, y3). It is the negated signed double area of
      the triangle they span. */
  function Turn(x1: real, y1: real, x2: real, y2: real, x3: real, y3: real): real {
    (y2 - y1) * (x3 - x2) - (x2 - x1) * (y3 - y2)
  }

  /** `Turn` on three points. */
  function TurnOf(p: Point, q: Point, r: Point): real {
    Turn(p.x, p.y, q.x, q.y, r.x, r.y)
  }

  /** Signed double area of the triangle p, q, r: the cross product of
      q - p and r - p. Positive when p, q, r wind counter-clockwise in the
      usual mathematical frame. It is the reference that the
      classifiers' expanded formulas are compared with. */
  function Area2(p: Point, q: Point, r: Point): real {
    (q.x - p.x) * (r.y - p.y) - (q.y - p.y) * (r.x - p.x)
  }

  /** `Turn` is the signed double area with the opposite sign. */
  lemma TurnIsNegatedArea(p: Point, q: Point, r: Point)
    ensures TurnOf(p, q, r) == -Area2(p, q, r)
  {
  }

  /** The sign classification used once a value is known not to be near
      zero: negative is counter-clockwise, everything else clockwise. */
  function SignOrientation(v: real): (o: Orientation)
    ensures o != Collinear
    ensures o == CounterClockwise <==> v < 0.0
  {
    if v < 0.0 then CounterClockwise else Clockwise
  }

  /** The orientation primitive. The band test is written as in the program
      (`val < EPSYLON && val > -EPSYLON`); the contract states it as
      `fabs(val) < EPSYLON`, the form the classifier uses, and gives the
      strict sign outside the band. */
  function GetOrientation(x1: real, y1: real, x2: real, y2: real, x3: real, y3: real): (o: Orientation)
    ensures o == Collinear <==> NearZero(Turn(x1, y1, x2, y2, x3, y3))
    ensures o == CounterClockwise <==> Turn(x1, y1, x2, y2, x3, y3) <= -Epsilon
    ensures o == Clockwise <==> Turn(x1, y1, x2, y2, x3, y3) >= Epsilon
  {
    var val := Turn(x1, y1, x2, y2, x3, y3);
    if val < Epsilon && val > -Epsilon then Collinear
    else SignOrientation(val)
  }

  /** `GetOrientation` on three points. */
  function OrientationOf(p: Point, q: Point, r: Point): Orientation {
    GetOrientation(p.x, p.y, q.x, q.y, r.x, r.y)
  }

  /** The orientation with its roles swapped: clockwise and counter-clockwise
      exchange, collinear stays. */
  function Flip(o: Orientation): Orientation {
    match o
    case Clockwise => CounterClockwise
    case CounterClockwise => Clockwise
    case Collinear => Collinear
  }

  /** Rotating the three points cyclically does not change `Turn`; swapping
      the first two negates it. Together these give every permutation. */
  lemma TurnSymmetry(p: Point, q: Point, r: Point)
    ensures TurnOf(p, q, r) == TurnOf(q, r, p) == TurnOf(r, p, q)
    ensures TurnOf(q, p, r) == -TurnOf(p, q, r)
    ensures TurnOf(p, r, q) == -TurnOf(p, q, r)
    ensures TurnOf(r, q, p) == -TurnOf(p, q, r)
  {
  }

  /** Cyclic rotation preserves the orientation. */
  lemma OrientationRotation(p: Point, q: Point, r: Point)
    ensures OrientationOf(q, r, p) == OrientationOf(p, q, r)
    ensures OrientationOf(r, p, q) == OrientationOf(p, q, r)
  {
    TurnSymmetry(p, q, r);
  }

  /** Swapping any two of the points flips a clockwise result to
      counter-clockwise and back, and keeps a collinear result. */
  lemma OrientationSwap(p: Point, q: Point, r: Point)
    ensures OrientationOf(q, p, r) == Flip(OrientationOf(p, q, r))
    ensures OrientationOf(p, r, q) == Flip(OrientationOf(p, q, r))
    ensures OrientationOf(r, q, p) == Flip(OrientationOf(p, q, r))
  {
    TurnSymmetry(p, q, r);
  }

  /** The point a fraction `t` of the way from e to f. */
  function Between(e: Point, f: Point, t: real): Point {
    Point(e.x + t * (f.x - e.x), e.y + t * (f.y - e.y))
  }

  /** The position of p along the line from e to f, measured so that e is
      at 0 and f at 1, read off an axis on which e and f differ. */
  function LineParam(e: Point, f: Point, p: Point): real
    requires e != f
  {
    if e.x != f.x then (p.x - e.x) / (f.x - e.x) else (p.y - e.y) / (f.y - e.y)
  }

  /** A point whose area with a proper segment e-f is zero lies on the line
      through e and f, at the position `LineParam` names. */
  lemma OnLine(e: Point, f: Point, p: Point)
    requires e != f
    requires Area2(p, e, f) == 0.0
    ensures p == Between(e, f, LineParam(e, f, p))
  {
    assert Area2(p, e, f) == (f.x - e.x) * (p.y - e.y) - (f.y - e.y) * (p.x - e.x);
    if e.x != f.x {
      AxisParam(e.x, e.y, f.x, f.y, p.x, p.y);
    } else {
      AxisParam(e.y, e.x, f.y, f.x, p.y, p.x);
    }
  }

  /** Coordinate form of `OnLine`, reading the position off the first
      axis. */
  lemma AxisParam(ex: real, ey: real, fx: real, fy: real, px: real, py: real)
    requires ex != fx
    requires (fx - ex) * (py - ey) == (fy - ey) * (px - ex)
    ensures px == ex + (px - ex) / (fx - ex) * (fx - ex)
    ensures py == ey + (px - ex) / (fx - ex) * (fy - ey)
  {
    var u1, u2 := fx - ex, fy - ey;
    var w1, w2 := px - ex, py - ey;
    var t := w1 / u1;
    assert t * u1 == w1;
    assert u1 * w2 == u1 * (t * u2);
    Cancel(u1, w2, t * u2);
  }

  /** A non-zero factor cancels. */
  lemma Cancel(k: real, x: real, y: real)
    requires k != 0.0 && k * x == k * y
    ensures x == y
  {
    assert k * (x - y) == 0.0;
  }
}

=== FILE: harness.dfy ===
/** The benchmark's driver without its timing and printing: generating the
    corpus, running each classifier over it, and comparing the results.

    The random number generator is a parameter: a finite stream of the
    values `rand() % 1000` would return, consumed in order. */
module Harness {
  import opened Geometry
  import Barycentric
  import OrientationClassifier
  import opened Agreement

  datatype Option<T> = None | Some(value: T)

  /** A value taken from the stream, with what is left of the stream. */
  datatype Drawn<T> = Drawn(value: T, rest: seq<Draw>)

  /** One generated case: a triangle and a query point. */
  datatype TestCase = TestCase(a: Point, b: Point, c: Point, p: Point)

  /** Number of distinct coordinates: every coordinate is `rand() % 1000`. */
  const CoordinateRange: nat := 1000

  /** One value of `rand() % 1000`; `rand()` is never negative. */
  type Draw = d: int | 0 <= d < CoordinateRange

  /** A coordinate the generator can produce: an integer in [0, 999]. */
  predicate GeneratedCoordinate(v: real) {
    IsIntegral(v) && 0.0 <= v <= (CoordinateRange - 1) as real
  }

  predicate GeneratedPoint(p: Point) {
    GeneratedCoordinate(p.x) && GeneratedCoordinate(p.y)
  }

  /** What the generation loop guarantees of every stored case. */
  predicate WellFormed(t: TestCase) {
    && GeneratedPoint(t.a) && GeneratedPoint(t.b) && GeneratedPoint(t.c)
    && GeneratedPoint(t.p)
    && NonCollinear(t.a, t.b, t.c)
  }

  /** A drawn value promoted to a coordinate. */
  function Coordinate(draw: Draw): (v: real)
    ensures GeneratedCoordinate(v)
  {
    draw as real
  }

  /** Three vertices, in the order the program stores them. */
  type Triangle = (Point, Point, Point)

  /** The triangle built from six draws starting at `k`, in the program's
      order x1, x2, x3, y1, y2, y3. */
  function TriangleAt(draws: seq<Draw>, k: nat): (t: Triangle)
    requires k + 6 <= |draws|
    ensures GeneratedPoint(t.0) && GeneratedPoint(t.1) && GeneratedPoint(t.2)
  {
    (Point(Coordinate(draws[k]), Coordinate(draws[k + 3])),
     Point(Coordinate(draws[k + 1]), Coordinate(draws[k + 4])),
     Point(Coordinate(draws[k + 2]), Coordinate(draws[k + 5])))
  }

  /** The resampling loop for any condition: take six draws at a time until
      a triangle meets `keep`; `None` when the stream runs out first. What
      is left of the stream is a proper suffix of it. */
  function DrawUntil(draws: seq<Draw>, keep: Triangle -> bool): (r: Option<Drawn<Triangle>>)
    decreases |draws|
    ensures r.Some? ==> |r.value.rest| + 6 <= |draws|
    ensures r.Some? ==> r.value.rest == draws[|draws| - |r.value.rest|..]
    ensures r.Some? ==> keep(r.value.value)
    ensures r.Some? ==> GeneratedPoint(r.value.value.0) && GeneratedPoint(r.value.value.1) && GeneratedPoint(r.value.value.2)
  {
    if |draws| < 6 then None
    else if !keep(TriangleAt(draws, 0)) then DrawUntil(draws[6..], keep)
    else Some(Drawn(TriangleAt(draws, 0), draws[6..]))
  }

  /** Dropping the first group of six draws shifts every later group. */
  lemma ShiftGroups(draws: seq<Draw>, k: nat)
    requires 6 <= k && k + 6 <= |draws|
    ensures TriangleAt(draws[6..], k - 6) == TriangleAt(draws, k)
  {
  }

  /** The triangle kept is the first group of six draws that meets the
      condition, and every group before it failed the condition and was
      drawn again. */
  lemma {:induction false} DrawUntilIsFirstKept(draws: seq<Draw>, keep: Triangle -> bool)
    decreases |draws|
    ensures var r := DrawUntil(draws, keep);
      r.Some? ==>
        var used := |draws| - |r.value.rest|;
        && used % 6 == 0
        && r.value.value == TriangleAt(draws, used - 6)
        && forall k: nat :: k + 6 < used && k % 6 == 0 ==> !keep(TriangleAt(draws, k))
  {
    if |draws| >= 6 && !keep(TriangleAt(draws, 0)) {
      var r := DrawUntil(draws[6..], keep);
      DrawUntilIsFirstKept(draws[6..], keep);
      if r.Some? {
        var used := |draws| - |r.value.rest|;
        ShiftGroups(draws, used - 6);
        forall k: nat | k + 6 < used && k % 6 == 0
          ensures !keep(TriangleAt(draws, k))
        {
          if k >= 6 {
            ShiftGroups(draws, k);
            assert (k - 6) % 6 == 0 && (k - 6) + 6 < used - 6;
          }
        }
      }
    }
  }

  /** The resampling loop gives up exactly when no group of six draws in
      the stream meets the condition: whenever some group does, a triangle
      is returned. */
  lemma {:induction false} DrawUntilNoneIffNoneKept(draws: seq<Draw>, keep: Triangle -> bool)
    decreases |draws|
    ensures DrawUntil(draws, keep).None?
        <==> forall k: nat :: k + 6 <= |draws| && k % 6 == 0 ==> !keep(TriangleAt(draws, k))
  {
    if |draws| >= 6 {
      if !keep(TriangleAt(draws, 0)) {
        DrawUntilNoneIffNoneKept(draws[6..], keep);
        if DrawUntil(draws, keep).None? {
          forall k: nat | k + 6 <= |draws| && k % 6 == 0
            ensures !keep(TriangleAt(draws, k))
          {
            if k >= 6 {
              ShiftGroups(draws, k);
              assert (k - 6) % 6 == 0 && (k - 6) + 6 <= |draws[6..]|;
            }
          }
        } else {
          var k: nat :| k + 6 <= |draws[6..]| && k % 6 == 0 && keep(TriangleAt(draws[6..], k));
          ShiftGroups(draws, k + 6);
          assert (k + 6) % 6 == 0 && keep(TriangleAt(draws, k + 6));
        }
      } else {
        assert 0 % 6 == 0 && keep(TriangleAt(draws, 0));
      }
    }
  }

  /** A triangle the generator keeps: not collinear by the orientation
      primitive. */
  predicate Kept(t: Triangle) {
    NonCollinear(t.0, t.1, t.2)
  }

  /** The generator's triangle: draw six coordinates, and all six again
      while the orientation primitive calls the triangle collinear. */
  function DrawTriangle(draws: seq<Draw>): (r: Option<Drawn<Triangle>>)
    ensures r.Some? ==> NonCollinear(r.value.value.0, r.value.value.1, r.value.value.2)
  {
    DrawUntil(draws, Kept)
  }

  /** The generator finds a triangle exactly when the stream holds a group
      of six draws that the orientation primitive does not call collinear. */
  lemma DrawTriangleNoneIffAllCollinear(draws: seq<Draw>)
    ensures DrawTriangle(draws).None?
        <==> forall k: nat :: k + 6 <= |draws| && k % 6 == 0 ==>
               var t := TriangleAt(draws, k); !NonCollinear(t.0, t.1, t.2)
  {
    DrawUntilNoneIffNoneKept(draws, Kept);
    assert forall k: nat :: k + 6 <= |draws| ==> (Kept(TriangleAt(draws, k)) <==> var t := TriangleAt(draws, k); NonCollinear(t.0, t.1, t.2));
  }

  /** Draw one test case: a triangle, then the query point's x and y. */
  function DrawCase(draws: seq<Draw>): (r: Option<Drawn<TestCase>>)
    ensures r.Some? ==> WellFormed(r.value.value)
    ensures r.Some? ==> |r.value.rest| < |draws| && r.value.rest == draws[|draws| - |r.value.rest|..]
  {
    match DrawTriangle(draws)
    case None => None
    case Some(Drawn((a, b, c), rest)) =>
      if |rest| < 2 then None
      else
        Some(Drawn(TestCase(a, b, c, Point(Coordinate(rest[0]), Coordinate(rest[1]))), rest[2..]))
  }

  /** A case can be drawn exactly when some group of six draws that the
      orientation primitive does not call collinear is followed by at least
      the two draws of the query point. */
  lemma DrawCaseNoneIffNoRoom(draws: seq<Draw>)
    ensures DrawCase(draws).None?
        <==> forall k: nat :: k + 8 <= |draws| && k % 6 == 0 ==> !Kept(TriangleAt(draws, k))
  {
    DrawUntilNoneIffNoneKept(draws, Kept);
    DrawUntilIsFirstKept(draws, Kept);
    var r := DrawTriangle(draws);
    if r.Some? {
      var used := |draws| - |r.value.rest|;
      if |r.value.rest| >= 2 {
        assert (used - 6) + 8 <= |draws| && (used - 6) % 6 == 0 && Kept(TriangleAt(draws, used - 6));
      } else {
        forall k: nat | k + 8 <= |draws| && k % 6 == 0
          ensures !Kept(TriangleAt(draws, k))
        {
          assert k + 6 < used;
        }
      }
    }
  }

  /** `n` values drawn one after the other by `step`, each from what the
      previous one left of the stream; `None` as soon as a step fails. */
  function Repeat<T>(n: nat, draws: seq<Draw>, step: seq<Draw> -> Option<Drawn<T>>): (r: Option<Drawn<seq<T>>>)
    ensures r.Some? ==> |r.value.value| == n
  {
    if n == 0 then Some(Drawn([], draws))
    else
      match step(draws)
      case None => None
      case Some(Drawn(t, rest)) =>
        match Repeat(n - 1, rest, step)
        case None => None
        case Some(Drawn(ts, rest')) => Some(Drawn([t] + ts, rest'))
  }

  /** Every value drawn meets a property that every successful step
      guarantees. */
  lemma {:induction false} RepeatKeeps<T>(n: nat, draws: seq<Draw>, step: seq<Draw> -> Option<Drawn<T>>, good: T -> bool)
    requires forall d :: step(d).Some? ==> good(step(d).value.value)
    ensures var r := Repeat(n, draws, step);
      r.Some? ==> forall i :: 0 <= i < n ==> good(r.value.value[i])
  {
    if n > 0 && step(draws).Some? {
      RepeatKeeps(n - 1, step(draws).value.rest, step, good);
    }
  }

  /** A stream that suffices for `m` steps suffices for any smaller number,
      and the shorter sequence is the beginning of the longer one. */
  lemma {:induction false} RepeatPrefix<T>(n: nat, m: nat, draws: seq<Draw>, step: seq<Draw> -> Option<Drawn<T>>)
    requires n <= m
    requires Repeat(m, draws, step).Some?
    ensures Repeat(n, draws, step).Some?
    ensures Repeat(n, draws, step).value.value == Repeat(m, draws, step).value.value[..n]
  {
    if n > 0 {
      var first := step(draws).value.value;
      var rest := step(draws).value.rest;
      RepeatPrefix(n - 1, m - 1, rest, step);
      var long := Repeat(m - 1, rest, step).value.value;
      assert ([first] + long)[..n] == [first] + long[..n - 1];
    }
  }

  /** One step more: after `n` successful steps, step `n + 1` succeeds
      exactly when `step` succeeds on what is left of the stream, and then
      appends its value and leaves what that step leaves. */
  lemma {:induction false} RepeatExtend<T>(n: nat, draws: seq<Draw>, step: seq<Draw> -> Option<Drawn<T>>)
    requires Repeat(n, draws, step).Some?
    ensures var r := Repeat(n, draws, step).value;
      && (Repeat(n + 1, draws, step).Some? <==> step(r.rest).Some?)
      && (step(r.rest).Some? ==>
            Repeat(n + 1, draws, step).value
              == Drawn(r.value + [step(r.rest).value.value], step(r.rest).value.rest))
  {
    if n == 0 {
      assert Repeat(0, draws, step).value.rest == draws;
      if step(draws).Some? {
        var t := step(draws).value;
        assert Repeat(0, t.rest, step) == Some(Drawn([], t.rest));
        assert [t.value] + [] == [t.value] == [] + [t.value];
        assert Repeat(1, draws, step) == Some(Drawn([t.value], t.rest));
      }
    } else {
      var first := step(draws).value.value;
      var rest := step(draws).value.rest;
      var k: nat := n - 1;
      RepeatExtend(k, rest, step);
      var r := Repeat(k, rest, step).value;
      assert Repeat(n, draws, step).value == Drawn([first] + r.value, r.rest);
      assert Repeat(n + 1, draws, step).Some? <==> Repeat(k + 1, rest, step).Some?;
      if step(r.rest).Some? {
        assert Repeat(n + 1, draws, step).value.value == [first] + Repeat(k + 1, rest, step).value.value;
        assert [first] + (r.value + [step(r.rest).value.value])
            == ([first] + r.value) + [step(r.rest).value.value];
      }
    }
  }

  /** The generation loop: `n` cases drawn one after the other, each meeting
      the loop's postcondition. */
  function GenerateCorpus(n: nat, draws: seq<Draw>): (r: Option<Drawn<seq<TestCase>>>)
    ensures r.Some? ==> |r.value.value| == n
    ensures r.Some? ==> forall i :: 0 <= i < n ==> WellFormed(r.value.value[i])
  {
    RepeatKeeps(n, draws, DrawCase, WellFormed);
    Repeat(n, draws, DrawCase)
  }

  /** Cases are drawn one after the other from the same stream: a stream
      that suffices for `m` cases suffices for any smaller number, and the
      smaller corpus is the beginning of the larger one. */
  lemma GenerateCorpusPrefix(n: nat, m: nat, draws: seq<Draw>)
    requires n <= m
    requires GenerateCorpus(m, draws).Some?
    ensures GenerateCorpus(n, draws).Some?
    ensures GenerateCorpus(n, draws).value.value == GenerateCorpus(m, draws).value.value[..n]
  {
    RepeatPrefix(n, m, draws, DrawCase);
  }

  /** The generation loop stops short exactly at the first case the rest of
      the stream has no room for: after `n` cases, case `n + 1` is drawn
      exactly when what is left still holds a group of six draws the
      orientation primitive does not call collinear, followed by two more;
      that case is then appended to the corpus. */
  lemma GenerateCorpusExtend(n: nat, draws: seq<Draw>)
    requires GenerateCorpus(n, draws).Some?
    ensures var r := GenerateCorpus(n, draws).value;
      && (GenerateCorpus(n + 1, draws).Some?
          <==> exists k: nat :: k + 8 <= |r.rest| && k % 6 == 0 && Kept(TriangleAt(r.rest, k)))
      && (GenerateCorpus(n + 1, draws).Some? <==> DrawCase(r.rest).Some?)
      && (DrawCase(r.rest).Some? ==>
            GenerateCorpus(n + 1, draws).value.value == r.value + [DrawCase(r.rest).value.value])
  {
    var r := Repeat(n, draws, DrawCase).value;
    RepeatExtend(n, draws, DrawCase);
    DrawCaseNoneIffNoRoom(r.rest);
    if DrawCase(r.rest).Some? {
      var k: nat :| k + 8 <= |r.rest| && k % 6 == 0 && Kept(TriangleAt(r.rest, k));
    }
  }

  /** One timed pass without the timing: the classifier applied to every
      case, each result stored at the case's index. */
  method RunPass(corpus: seq<TestCase>, classify: (Point, Point, Point, Point) -> bool)
    returns (results: seq<bool>)
    ensures |results| == |corpus|
    ensures forall i :: 0 <= i < |corpus| ==>
      results[i] == classify(corpus[i].a, corpus[i].b, corpus[i].c, corpus[i].p)
  {
    results := [];
    var i := 0;
    while i < |corpus|
      invariant i <= |corpus|
      invariant |results| == i
      invariant forall j :: 0 <= j < i ==>
        results[j] == classify(corpus[j].a, corpus[j].b, corpus[j].c, corpus[j].p)
    {
      results := results + [classify(corpus[i].a, corpus[i].b, corpus[i].c, corpus[i].p)];
      i := i + 1;
    }
  }

  /** The comparison loop: success is kept until the first index where the
      two result sequences differ, where the loop stops. */
  method Compare(barycentric: seq<bool>, orientation: seq<bool>) returns (overallSuccess: bool)
    requires |barycentric| == |orientation|
    ensures overallSuccess <==> forall i :: 0 <= i < |barycentric| ==> barycentric[i] == orientation[i]
  {
    overallSuccess := true;
    var i := 0;
    while i < |barycentric|
      invariant i <= |barycentric|
      invariant overallSuccess
      invariant forall j :: 0 <= j < i ==> barycentric[j] == orientation[j]
    {
      if barycentric[i] != orientation[i] {
        overallSuccess := false;
        break;
      }
      i := i + 1;
    }
  }

  /** Both passes over one corpus followed by the comparison. On a corpus
      the generator can produce the verdict is always success. */
  method RunBenchmark(corpus: seq<TestCase>) returns (overallSuccess: bool)
    ensures overallSuccess <==> forall i :: 0 <= i < |corpus| ==>
      Barycentric.PointLiesInTriangle(corpus[i].a, corpus[i].b, corpus[i].c, corpus[i].p)
        == OrientationClassifier.PointLiesInTriangle(corpus[i].a, corpus[i].b, corpus[i].c, corpus[i].p)
    ensures (forall i :: 0 <= i < |corpus| ==> WellFormed(corpus[i])) ==> overallSuccess
  {
    var barycentric := RunPass(corpus, Barycentric.PointLiesInTriangle);
    var orientation := RunPass(corpus, OrientationClassifier.PointLiesInTriangle);
    overallSuccess := Compare(barycentric, orientation);
    if forall i :: 0 <= i < |corpus| ==> WellFormed(corpus[i]) {
      forall i | 0 <= i < |corpus|
        ensures barycentric[i] == orientation[i]
      {
        var t := corpus[i];
        ClassifiersAgree(t.a, t.b, t.c, t.p);
      }
    }
  }

  /** The whole program without its clock and its output: generate `n`
      cases from the stream, run both classifiers, compare. Whenever the
      stream suffices to generate the corpus, the verdict is success. */
  method RunProgram(n: nat, draws: seq<Draw>) returns (verdict: Option<bool>)
    ensures verdict.None? <==> GenerateCorpus(n, draws).None?
    ensures verdict.Some? ==> verdict.value
  {
    match GenerateCorpus(n, draws)
    case None =>
      verdict := None;
    case Some(Drawn(corpus, _)) =>
      var success := RunBenchmark(corpus);
      verdict := Some(success);
  }
}

=== FILE: orientation_classifier.dfy ===
/** The second classifier: point-in-triangle by the orientation of the
    query point against each edge, with explicit vertex and edge handling.
    Arithmetic is exact (`real`). */
module OrientationClassifier {
  import opened Geometry

  /** p coincides with q within the tolerance on both axes. */
  predicate NearPoint(q: Point, p: Point) {
    Abs(q.x - p.x) < Epsilon && Abs(q.y - p.y) < Epsilon
  }

  /** p lies in the closed box spanned by e and f, compared in both orders of
      the endpoints on each axis. */
  predicate InEdgeBox(p: Point, e: Point, f: Point) {
    && ((p.x >= e.x && p.x <= f.x) || (p.x >= f.x && p.x <= e.x))
    && ((p.y >= e.y && p.y <= f.y) || (p.y >= f.y && p.y <= e.y))
  }

  /** The value computed for the edge from e to f relative to p. It is the
      orientation primitive's value for the triple (p, e, f), and the
      negated area of the triangle p, e, f. */
  function EdgeValue(e: Point, f: Point, p: Point): (v: real)
    ensures v == TurnOf(p, e, f)
    ensures v == -Area2(p, e, f)
  {
    (e.y - p.y) * (f.x - e.x) - (e.x - p.x) * (f.y - e.y)
  }

  /** `PointLiesInTriangle_Orientation`: the vertex fast path, then the
      edges A->B, B->C and C->A in that order. The first edge whose value is
      near zero decides by its box alone; otherwise p is inside when the
      three edge orientations agree. */
  function PointLiesInTriangle(a: Point, b: Point, c: Point, p: Point): (r: bool)
    ensures NearPoint(a, p) || NearPoint(b, p) || NearPoint(c, p) ==> r
  {
    if NearPoint(a, p) || NearPoint(b, p) || NearPoint(c, p) then true
    else
      var val1 := EdgeValue(a, b, p);
      if Abs(val1) < Epsilon then InEdgeBox(p, a, b)
      else
        var first := SignOrientation(val1);
        var val2 := EdgeValue(b, c, p);
        if Abs(val2) < Epsilon then InEdgeBox(p, b, c)
        else
          var central := SignOrientation(val2);
          var val3 := EdgeValue(c, a, p);
          if Abs(val3) < Epsilon then InEdgeBox(p, c, a)
          else
            var third := SignOrientation(val3);
            first == central && central == third
  }

  /** p is near none of the three vertices: the fast path is not taken. */
  predicate AwayFromVertices(a: Point, b: Point, c: Point, p: Point) {
    !NearPoint(a, p) && !NearPoint(b, p) && !NearPoint(c, p)
  }

  /** The first edge, in the order A->B, B->C, C->A, whose value is near
      zero decides the result by the box of that edge alone; the third
      vertex and the other edges play no part. */
  lemma CollinearEdgeDecides(a: Point, b: Point, c: Point, p: Point)
    requires AwayFromVertices(a, b, c, p)
    ensures NearZero(TurnOf(p, a, b))
        ==> PointLiesInTriangle(a, b, c, p) == InEdgeBox(p, a, b)
    ensures !NearZero(TurnOf(p, a, b)) && NearZero(TurnOf(p, b, c))
        ==> PointLiesInTriangle(a, b, c, p) == InEdgeBox(p, b, c)
    ensures !NearZero(TurnOf(p, a, b)) && !NearZero(TurnOf(p, b, c)) && NearZero(TurnOf(p, c, a))
        ==> PointLiesInTriangle(a, b, c, p) == InEdgeBox(p, c, a)
  {
  }

  /** When p is near no vertex and no edge value is near zero, p is inside
      exactly when the orientation primitive gives the same winding for p
      against each of the three edges. */
  lemma SameWindingDecides(a: Point, b: Point, c: Point, p: Point)
    requires AwayFromVertices(a, b, c, p)
    requires !NearZero(TurnOf(p, a, b)) && !NearZero(TurnOf(p, b, c)) && !NearZero(TurnOf(p, c, a))
    ensures PointLiesInTriangle(a, b, c, p)
        <==> OrientationOf(p, a, b) == OrientationOf(p, b, c) == OrientationOf(p, c, a)
  {
  }

  /** On the line through a proper segment, the box test is exactly
      membership of the closed segment: the position along the line lies
      between 0 and 1. */
  lemma BoxIsSegment(e: Point, f: Point, p: Point, t: real)
    requires e != f
    requires p == Between(e, f, t)
    ensures InEdgeBox(p, e, f) <==> 0.0 <= t <= 1.0
  {
    AxisBetween(t, e.x, f.x, p.x);
    AxisBetween(t, e.y, f.y, p.y);
  }

  /** Coordinate form of `BoxIsSegment` for one axis. */
  lemma AxisBetween(t: real, ex: real, fx: real, px: real)
    requires px == ex + t * (fx - ex)
    ensures 0.0 <= t <= 1.0 ==> ((px >= ex && px <= fx) || (px >= fx && px <= ex))
    ensures ex != fx && ((px >= ex && px <= fx) || (px >= fx && px <= ex)) ==> 0.0 <= t <= 1.0
  {
    var u := fx - ex;
    var w := px - ex;
    assert w == t * u;
    if u > 0.0 {
      if t < 0.0 { assert w < 0.0; }
      if t > 1.0 { BeyondOne(t, u); }
      if 0.0 <= t <= 1.0 { assert w >= 0.0; assert u - w == (1.0 - t) * u; }
    } else if u < 0.0 {
      if t < 0.0 { assert w > 0.0; }
      if t > 1.0 { BeyondOne(t, u); }
      if 0.0 <= t <= 1.0 { assert w <= 0.0; assert u - w == (1.0 - t) * u; }
    }
  }

  /** Scaling by more than one moves a value further from zero. */
  lemma BeyondOne(t: real, u: real)
    requires t > 1.0
    ensures u > 0.0 ==> t * u > u
    ensures u < 0.0 ==> t * u < u
  {
    var s := t - 1.0;
    assert t * u == u + s * u;
    if u > 0.0 { assert s * u > 0.0; }
    if u < 0.0 { assert s * u < 0.0; }
  }

  /** Every point of the closed edge from a to b is reported inside,
      whatever the third vertex: its value for that edge is exactly zero. */
  lemma ContainsFirstEdge(a: Point, b: Point, c: Point, t: real)
    requires 0.0 <= t <= 1.0
    ensures PointLiesInTriangle(a, b, c, Between(a, b, t))
  {
    var p := Between(a, b, t);
    assert Area2(p, a, b) == 0.0;
    if a != b {
      BoxIsSegment(a, b, p, t);
    }
  }
}
